=== FILE: README.md ===
# Employee collaboration ranking — Dafny model

The system reads employee–project assignment rows (employee id, project id,
date from, date to). It finds the pair of employees with the longest
overlap on a shared project and reports the projects recorded along the
way. This project models the three pieces of logic in `solution.rb`:

- **`overlap_days`** (module `Intervals`). It counts the days two date
  intervals share: `max(0, min(ends) - max(starts))`. Dates are integer
  day numbers, because Ruby's `Date - Date` is a Rational whose value is
  a whole number of days. The model keeps the formula exactly and does not normalise inverted
  intervals. It proves that the formula counts the days both intervals
  cover, each read as the half-open range `[first, last)`.
- **`parse_date`** (module `DateParsing`). Nil, `""` and `"NULL"` yield
  "today", which is passed in as a parameter. Any other text goes through
  six strptime patterns in a fixed order, and the first one that accepts
  it wins. If none accepts it, the result is an error naming the text.
  What a single pattern accepts is `Date.strptime`, a library call, so it
  enters as an abstract function parameter.
- **The ranking loop** (modules `PairOrder`, `Collaboration`,
  `CollaborationFacts`, `Ranking`). This is the top-level loop over
  `data.combination(2)`, recast as a fold over the candidate pairs:
  - `PairOrder.Pairs` is the `combination(2)` order: lexicographic by
    position, as the standard Ruby interpreter enumerates it. Ruby's
    documentation of `Array#combination` does not promise an order, so
    the tie-breaking results (`CollaborationFacts.FoldBestPairIsFirst`,
    `Ranking.RankBestPairIsFirst`) rely on that implementation order.
  - `Collaboration.Step` is one run of the loop body.
  - `Collaboration.Rank` is the whole loop.
  - The state holds `max_collaboration_duration`, the sorted
    `max_collaboration_pair` (nil is `None`) and `common_projects`.
  - `common_projects` is never reset when the best pair changes. This is
    kept exactly as the source has it.

`Scenarios` works through small inputs. They cover the basic win, a tie
between projects, an entry left behind by a superseded pair, a tie at
the initial 0, and one employee paired with themself.

Three details of the code are kept as they are:

- Interval endpoints are never reordered; an inverted interval only
  meets the floor at 0.
- An interval overlapping itself counts `last - first` days, which is
  the half-open reading of the formula.
- The hash's default block (`[]`, solution.rb:90) is never reached,
  because the loop only assigns keys, so a plain `map` models it.

## Model

| member | source | states |
|---|---|---|
| Intervals.OverlapDays | solution.rb:40-43 | the overlap is a natural number, never more than either interval's own length, and positive only when both intervals run forwards |
| Intervals.OverlapCountsSharedDays | solution.rb:41 | the overlap equals the number of days covered by both intervals, each read as `[first, last)` |
| Intervals.OverlapPositiveIffSharedDay | solution.rb:41 | the overlap is positive if and only if some day is covered by both intervals |
| Intervals.OverlapSymmetric | solution.rb:41 | swapping the two intervals does not change the overlap |
| Intervals.OverlapWithItself | solution.rb:41 | an interval `(d1, d2)` with `d1 <= d2` overlaps itself by `d2 - d1` days |
| Intervals.OverlapOfSeparated | solution.rb:41 | an interval that ends on or before the other starts overlaps it by 0, in either argument order and even when either is inverted |
| DateParsing.FirstMatch | solution.rb:28-34 | trying patterns in order gives `None` exactly when every pattern fails; otherwise it gives the answer of some pattern that succeeded, and every pattern before that one failed |
| DateParsing.ParseDate | solution.rb:16-37 | nil, empty or `NULL` gives the injected today; other text gives the first succeeding pattern's date among the six, in their listed order; the error, which names the text, happens exactly when all six fail |
| DateParsing.FirstAcceptingFormatWins | solution.rb:19-34 | when pattern `k` is the first to accept the text, the parsed date is pattern `k`'s answer, whatever later patterns would give (so `%m/%d/%Y` beats `%d/%m/%Y`) |
| PairOrder.PairsExact | solution.rb:93 | the enumeration contains every position pair `a < b < n`, and its order is strictly increasing lexicographically (which rules out repeats) |
| Collaboration.SortedPair | solution.rb:99 | the recorded pair holds the two employee ids in ascending order |
| Collaboration.OverlapCountsCommonDays | solution.rb:96 | a pair's overlap takes each record's interval as (DateFrom, DateTo) and equals the number of days both records cover |
| Ranking.CandidateOf | solution.rb:93 | each position pair `i < j < n` is enumerated: at its index in `Pairs` the `combination(2)` candidate is `(recs[i], recs[j])` |
| Collaboration.Step | solution.rb:94-103 | a pair on different projects leaves the state unchanged; otherwise the best duration never decreases, no map key is lost, and the loop invariant is kept |
| Collaboration.Fold | solution.rb:88-104 | after any number of iterations: a pair is recorded exactly when the best duration is positive, the pair is sorted, and no map value exceeds the best duration |
| Collaboration.Rank | solution.rb:88-104 | the state the whole loop leaves keeps the loop invariant: a pair is recorded exactly when the best duration is positive, it is sorted, and no map value exceeds the best duration |
| CollaborationFacts.FoldPrefixMonotone | solution.rb:93-104 | the best duration after any prefix of the iterations is at most the final one, and every key present then is present at the end |
| CollaborationFacts.FoldMaxIsLargestOverlap | solution.rb:89-98 | the final best duration is at least every same-project pair's overlap; unless it is 0, some same-project pair attains it |
| CollaborationFacts.FoldBestPairIsFirst | solution.rb:97-99 | the pair is absent exactly when the best duration is 0; otherwise it is the sorted ids of the first pair reaching the best duration, and every earlier same-project pair overlaps strictly less |
| CollaborationFacts.WriteStoresRunningMax | solution.rb:97-102 | a write stores the running best duration just after that iteration, which is at most the final best duration |
| CollaborationFacts.FoldCommonProjectKeys | solution.rb:100-102 | a project is a key of `common_projects` if and only if some iteration wrote it |
| CollaborationFacts.FoldCommonProjectValues | solution.rb:100-102 | each project's value is the overlap of the last iteration that wrote that project |
| Ranking.RankMaxIsLargestOverlap | solution.rb:88-104 | over the input records, the final best duration is the maximum of 0 and the overlap of every pair `i < j` on the same project |
| Ranking.RankBestPairIsFirst | solution.rb:88-104 | the pair is nil exactly when the best duration is 0; otherwise it is the sorted ids of a pair `i < j` reaching it, and no same-project pair before `(i, j)` in `combination(2)` order reaches it |
| Ranking.RankCommonProjects | solution.rb:90-104 | every key of `common_projects` is the project of two records whose overlap is the stored value, and that value is at most the best duration |
| Ranking.RankMonotone | solution.rb:93-104 | while the loop runs, the best duration never decreases and no key of `common_projects` is removed |
| Scenarios.SharedProjectWins | solution.rb:88-104 | employees 1 and 2 share project 100 for 5 days and employee 3 works alone: the result is best duration 5, pair (1, 2), map {100: 5} |
| Scenarios.FirstOfTiedPairsWins | solution.rb:97-102 | two pairs tie at 10 days on projects 100 and 200: both projects are recorded and the pair is the first one, (1, 2) |
| Scenarios.SupersededEntryRemains | solution.rb:97-102 | a later, longer pair on project 200 replaces the best pair, and the 5-day entry for project 100 stays in the map |
| Scenarios.ZeroTieWritesWithoutPair | solution.rb:101-102 | a same-project pair with no overlap ties the initial 0, so its project is written with 0 and no pair is recorded |
| Scenarios.SameEmployeeCanPair | solution.rb:93-99 | two records of one employee on one project form a pair like any other, giving pair (7, 7) |

## Left out

- `load_data` (solution.rb:6-13). It does CSV reading, whitespace stripping and `String#to_i` on the ids, which is file I/O and library conversion. The ranking takes the loaded record sequence as input.
- The file dialog, its filter, the window and the table rendering (solution.rb:46-83, 107-144). This is user-interface code. It includes the indexing of a nil pair at solution.rb:122-123, which is reached when `common_projects` is non-empty but no pair was recorded (see `Scenarios.ZeroTieWritesWithoutPair`).
- `Date.strptime`. What each pattern accepts is a library call, so it is the parameter `strptime` of `DateParsing.ParseDate`, which returns `None` where the library raises `ArgumentError`.
- `Date.today`. The wall clock is the parameter `today`.
- The insertion order of the `common_projects` hash. It only affects display order, so a `map` stands in for it.
- Re-running the ranking on the same records gives the same result. In the model this holds by construction, because `Collaboration.Rank` is a function, so it carries no separate lemma.

=== FILE: collaboration.dfy ===
/** The pair-ranking loop at the top level of solution.rb, recast as a
    pure fold. The loop walks `data.combination(2)`; for each pair of
    records on the same project it compares the pair's overlap with the
    best seen so far and updates three variables: the best duration, the
    best pair of employee ids and the `common_projects` hash. */
module Collaboration {

  import opened Results
  import opened Intervals
  import opened PairOrder

  /** One row of input after loading: employee id, project id, and the
      DateFrom and DateTo cells as day numbers. */
  datatype Record = Record(emp: int, project: int, from: Day, to: Day)

  /** `[a, b].sort`: two employee ids, smaller first. */
  datatype EmployeePair = EmployeePair(lo: int, hi: int)

  /** The loop's three variables: `max_collaboration_duration`,
      `max_collaboration_pair` (nil as `None`) and `common_projects`. */
  datatype RankState = RankState(maxDuration: nat,
                                 bestPair: Option<EmployeePair>,
                                 commonProjects: map<int, nat>)

  /** The state before the first pair. */
  const Initial: RankState := RankState(0, None, map[])

  /** The invariant the loop keeps: a pair is recorded exactly when the
      best duration is positive, it is sorted, and no project's recorded
      value exceeds the best duration. */
  predicate WellFormed(st: RankState)
  {
    && (st.bestPair.None? <==> st.maxDuration == 0)
    && (st.bestPair.Some? ==> st.bestPair.value.lo <= st.bestPair.value.hi)
    && forall p :: p in st.commonProjects ==> st.commonProjects[p] <= st.maxDuration
  }

  function SortedPair(a: int, b: int): (p: EmployeePair)
    ensures p.lo <= p.hi
    ensures multiset{p.lo, p.hi} == multiset{a, b}
  {
    if a <= b then EmployeePair(a, b) else EmployeePair(b, a)
  }

  /** The overlap of two records' date intervals, each taken in the
      order DateFrom, DateTo. */
  function Overlap(x: Record, y: Record): nat
  {
    OverlapDays(Interval(x.from, x.to), Interval(y.from, y.to))
  }

  /** The overlap of two records is the number of days both records
      cover, each from its DateFrom up to its DateTo. */
  lemma OverlapCountsCommonDays(x: Record, y: Record)
    ensures Overlap(x, y) == |Days(Interval(x.from, x.to)) * Days(Interval(y.from, y.to))|
  {
    OverlapCountsSharedDays(Interval(x.from, x.to), Interval(y.from, y.to));
  }

  predicate SameProject(c: (Record, Record))
  {
    c.0.project == c.1.project
  }

  function PairOverlap(c: (Record, Record)): nat
  {
    Overlap(c.0, c.1)
  }

  /** One iteration of the loop body. A pair on different projects
      changes nothing; otherwise the best duration never decreases, no
      key of `common_projects` is lost, and the invariant is kept. */
  function Step(st: RankState, x: Record, y: Record): (r: RankState)
    ensures x.project != y.project ==> r == st
    ensures r.maxDuration >= st.maxDuration
    ensures st.commonProjects.Keys <= r.commonProjects.Keys
    ensures WellFormed(st) ==> WellFormed(r)
  {
    if x.project != y.project then st
    else
      var overlap := Overlap(x, y);
      if overlap > st.maxDuration then
        RankState(overlap, Some(SortedPair(x.emp, y.emp)),
                  st.commonProjects[x.project := overlap])
      else if overlap == st.maxDuration then
        st.(commonProjects := st.commonProjects[x.project := overlap])
      else
        st
  }

  /** The state after the loop body has run on every candidate in turn,
      defined by the last candidate so that `Fold(cands[..k])` is the
      state after the first `k` iterations. */
  function Fold(cands: seq<(Record, Record)>): (r: RankState)
    ensures WellFormed(r)
    decreases |cands|
  {
    if |cands| == 0 then Initial
    else
      var last := cands[|cands| - 1];
      Step(Fold(cands[..|cands| - 1]), last.0, last.1)
  }

  /** The record pairs `combination(2)` yields, in its order. */
  function Candidates(recs: seq<Record>): (cs: seq<(Record, Record)>)
    ensures forall k :: 0 <= k < |cs| ==>
              exists i, j :: 0 <= i < j < |recs| && cs[k] == (recs[i], recs[j])
  {
    var ps := Pairs(|recs|);
    var cs := seq(|ps|, k requires 0 <= k < |ps| => (recs[ps[k].0], recs[ps[k].1]));
    assert forall k :: 0 <= k < |cs| ==> cs[k] == (recs[ps[k].0], recs[ps[k].1]);
    cs
  }

  /** The state the loop leaves behind for the loaded records. */
  function Rank(recs: seq<Record>): (r: RankState)
    ensures WellFormed(r)
  {
    Fold(Candidates(recs))
  }

  /** Iteration `k` writes `common_projects`: its records share a project
      and their overlap reaches the best duration so far. */
  ghost predicate Writes(cands: seq<(Record, Record)>, k: nat)
    requires k < |cands|
  {
    SameProject(cands[k]) && PairOverlap(cands[k]) >= Fold(cands[..k]).maxDuration
  }

  /** Iteration `k` is the last one that writes project `p`. */
  ghost predicate LastWrite(cands: seq<(Record, Record)>, k: int, p: int)
  {
    && 0 <= k < |cands|
    && Writes(cands, k)
    && cands[k].0.project == p
    && forall k' :: k < k' < |cands| && cands[k'].0.project == p ==> !Writes(cands, k')
  }
}

=== FILE: collaboration_facts.dfy ===
/** What the ranking loop guarantees once it has run, proved about the
    fold in `Collaboration`: the best duration is the largest overlap of
    any same-project pair, the recorded pair is the first to reach it,
    and `common_projects` holds what the last qualifying write put there. */
module CollaborationFacts {

  import opened Results
  import opened Collaboration

  /** Running one more candidate is one more step. */
  lemma FoldSnoc(cands: seq<(Record, Record)>, c: (Record, Record))
    ensures Fold(cands + [c]) == Step(Fold(cands), c.0, c.1)
  {
    assert (cands + [c])[..|cands|] == cands;
  }

  /** The state after a prefix of the candidates: the best duration so
      far is at most the final one, and every key written so far is
      still present at the end. */
  lemma {:induction false} FoldPrefixMonotone(cands: seq<(Record, Record)>, k: nat)
    requires k <= |cands|
    ensures Fold(cands[..k]).maxDuration <= Fold(cands).maxDuration
    ensures Fold(cands[..k]).commonProjects.Keys <= Fold(cands).commonProjects.Keys
    decreases |cands|
  {
    if k < |cands| {
      var init := cands[..|cands| - 1];
      FoldPrefixMonotone(init, k);
      assert init[..k] == cands[..k];
    } else {
      assert cands[..k] == cands;
    }
  }

  /** The best duration is the maximum of 0 and every same-project
      candidate's overlap: no such overlap exceeds it, and unless it is 0
      some candidate attains it. */
  lemma {:induction false} FoldMaxIsLargestOverlap(cands: seq<(Record, Record)>)
    ensures forall k :: 0 <= k < |cands| && SameProject(cands[k]) ==>
              PairOverlap(cands[k]) <= Fold(cands).maxDuration
    ensures Fold(cands).maxDuration == 0 ||
            exists k :: 0 <= k < |cands| && SameProject(cands[k]) &&
                        PairOverlap(cands[k]) == Fold(cands).maxDuration
    decreases |cands|
  {
    if |cands| > 0 {
      var n := |cands|;
      var init := cands[..n - 1];
      FoldMaxIsLargestOverlap(init);
      assert forall k :: 0 <= k < n - 1 ==> init[k] == cands[k];
    }
  }

  /** The recorded pair is the sorted employee ids of the first candidate,
      in enumeration order, whose overlap equals the final best duration:
      every same-project candidate before it overlaps strictly less, so a
      later tie never replaces it. */
  lemma {:induction false} FoldBestPairIsFirst(cands: seq<(Record, Record)>)
    ensures Fold(cands).bestPair.None? <==> Fold(cands).maxDuration == 0
    ensures Fold(cands).maxDuration > 0 ==>
              exists k :: 0 <= k < |cands| && SameProject(cands[k]) &&
                          PairOverlap(cands[k]) == Fold(cands).maxDuration &&
                          Fold(cands).bestPair == Some(SortedPair(cands[k].0.emp, cands[k].1.emp)) &&
                          forall j :: 0 <= j < k && SameProject(cands[j]) ==>
                                      PairOverlap(cands[j]) < Fold(cands).maxDuration
    decreases |cands|
  {
    if |cands| > 0 {
      var n := |cands|;
      var init := cands[..n - 1];
      var last := cands[n - 1];
      var before := Fold(init);
      FoldBestPairIsFirst(init);
      FoldMaxIsLargestOverlap(init);
      assert forall k :: 0 <= k < n - 1 ==> init[k] == cands[k];
      if SameProject(last) && PairOverlap(last) > before.maxDuration {
        assert SameProject(cands[n - 1]);
      }
    }
  }

  /** Whether iteration `k` writes depends only on the candidates up to
      and including `k`. */
  lemma WritesOfPrefix(cands: seq<(Record, Record)>, m: nat, k: nat)
    requires k < m <= |cands|
    ensures Writes(cands[..m], k) <==> Writes(cands, k)
  {
    assert cands[..m][..k] == cands[..k];
  }

  /** A write stores the running best duration just after that
      iteration. */
  lemma WriteStoresRunningMax(cands: seq<(Record, Record)>, k: nat)
    requires k < |cands|
    requires Writes(cands, k)
    ensures PairOverlap(cands[k]) == Fold(cands[..k + 1]).maxDuration
    ensures PairOverlap(cands[k]) <= Fold(cands).maxDuration
  {
    assert cands[..k + 1][..k] == cands[..k];
    FoldPrefixMonotone(cands, k + 1);
  }

  /** Dropping the last candidate leaves every earlier iteration's
      records and its decision to write unchanged. */
  lemma WritesOfInit(cands: seq<(Record, Record)>)
    requires |cands| > 0
    ensures forall k :: 0 <= k < |cands| - 1 ==>
              cands[..|cands| - 1][k] == cands[k] &&
              (Writes(cands[..|cands| - 1], k) <==> Writes(cands, k))
  {
    var n := |cands|;
    forall k | 0 <= k < n - 1
      ensures Writes(cands[..n - 1], k) <==> Writes(cands, k)
    {
      WritesOfPrefix(cands, n - 1, k);
    }
  }

  /** A last write among the earlier candidates stays the last write
      unless the final candidate writes the same project. */
  lemma LastWriteSurvives(cands: seq<(Record, Record)>, k: int, p: int)
    requires |cands| > 0
    requires LastWrite(cands[..|cands| - 1], k, p)
    requires !(Writes(cands, |cands| - 1) && cands[|cands| - 1].0.project == p)
    ensures LastWrite(cands, k, p)
  {
    var n := |cands|;
    var init := cands[..n - 1];
    WritesOfPrefix(cands, n - 1, k);
    assert init[k] == cands[k];
    forall k' | k < k' < n && cands[k'].0.project == p
      ensures !Writes(cands, k')
    {
      if k' < n - 1 {
        WritesOfPrefix(cands, n - 1, k');
        assert init[k'] == cands[k'];
      }
    }
  }

  /** A project is a key of `common_projects` if and only if some
      iteration wrote it; nothing removes a key. */
  lemma {:induction false} FoldCommonProjectKeys(cands: seq<(Record, Record)>)
    ensures forall p :: p in Fold(cands).commonProjects <==>
              exists k :: 0 <= k < |cands| && Writes(cands, k) && cands[k].0.project == p
    decreases |cands|
  {
    if |cands| > 0 {
      var n := |cands|;
      var init := cands[..n - 1];
      FoldCommonProjectKeys(init);
      WritesOfInit(cands);
    }
  }

  /** Each value in `common_projects` is the overlap of the last
      iteration that wrote that project. */
  lemma {:induction false} FoldCommonProjectValues(cands: seq<(Record, Record)>)
    ensures forall p :: p in Fold(cands).commonProjects ==>
              exists k :: LastWrite(cands, k, p) &&
                          Fold(cands).commonProjects[p] == PairOverlap(cands[k])
    decreases |cands|
  {
    if |cands| > 0 {
      var n := |cands|;
      var init := cands[..n - 1];
      var last := cands[n - 1];
      FoldCommonProjectValues(init);
      var m := Fold(cands).commonProjects;
      var m0 := Fold(init).commonProjects;
      forall p | p in m
        ensures exists k :: LastWrite(cands, k, p) && m[p] == PairOverlap(cands[k])
      {
        if Writes(cands, n - 1) && last.0.project == p {
          assert m[p] == PairOverlap(last);
          assert LastWrite(cands, n - 1, p);
        } else {
          assert p in m0 && m[p] == m0[p];
          var k :| LastWrite(init, k, p) && m0[p] == PairOverlap(init[k]);
          LastWriteSurvives(cands, k, p);
          WritesOfInit(cands);
        }
      }
    }
  }
}

=== FILE: date_parsing.dfy ===
/** `parse_date` in solution.rb: a sentinel check followed by a chain of
    format attempts in which the first success wins. What one format
    accepts is Ruby's `Date.strptime`, a library call outside this model;
    it enters as the parameter `strptime`, which answers `None` where the
    library raises `ArgumentError`. The wall clock enters as `today`. */
module DateParsing {

  import opened Results
  import opened Intervals

  /** The six strptime patterns the source accepts. */
  datatype Format =
    | YearMonthDayDash        // %Y-%m-%d
    | MonthDayYearSlash       // %m/%d/%Y
    | MonthDayShortYearSlash  // %m/%d/%y
    | DayMonthYearSlash       // %d/%m/%Y
    | DayMonthYearDash        // %d-%m-%Y
    | DayMonthShortYearSlash  // %d/%m/%y

  /** The patterns in the order they are tried. */
  const SupportedFormats: seq<Format> := [
    YearMonthDayDash,
    MonthDayYearSlash,
    MonthDayShortYearSlash,
    DayMonthYearSlash,
    DayMonthYearDash,
    DayMonthShortYearSlash
  ]

  /** A date cell as it reaches the parser: absent (`nil`) or a string. */
  datatype RawDate = Missing | Given(text: string)

  /** The `ArgumentError` raised when no pattern matches; it carries the
      offending text. */
  datatype DateError = UnsupportedFormat(text: string)

  /** The cells that stand for "no date": nil, the empty string and the
      literal `NULL`. */
  predicate IsSentinel(raw: RawDate)
  {
    raw.Missing? || raw.text == "" || raw.text == "NULL"
  }

  /** Tries `formats` in order and returns the first success. The result
      is the answer of some pattern in the list that succeeded, and every
      pattern before it failed; `None` means every pattern failed. */
  function FirstMatch(text: string, formats: seq<Format>,
                      strptime: (string, Format) -> Option<Day>): (r: Option<Day>)
    ensures r.None? <==> forall k :: 0 <= k < |formats| ==> strptime(text, formats[k]).None?
    ensures r.Some? ==>
              exists k :: 0 <= k < |formats| && strptime(text, formats[k]) == r &&
                          forall j :: 0 <= j < k ==> strptime(text, formats[j]).None?
    decreases |formats|
  {
    if |formats| == 0 then None
    else
      match strptime(text, formats[0])
      case Some(day) => Some(day)
      case None =>
        var rest := FirstMatch(text, formats[1..], strptime);
        assert forall k :: 0 < k < |formats| ==> formats[k] == formats[1..][k - 1];
        rest
  }

  /** `parse_date`: "today" for a sentinel cell, otherwise the first
      supported pattern that accepts the text, otherwise an error naming
      the text. */
  function ParseDate(raw: RawDate, today: Day,
                     strptime: (string, Format) -> Option<Day>): (r: Result<Day, DateError>)
    ensures IsSentinel(raw) ==> r == Ok(today)
    ensures r.Err? <==>
              !IsSentinel(raw) &&
              forall k :: 0 <= k < |SupportedFormats| ==> strptime(raw.text, SupportedFormats[k]).None?
    ensures r.Err? ==> r.error == UnsupportedFormat(raw.text)
    ensures r.Ok? && !IsSentinel(raw) ==>
              exists k :: 0 <= k < |SupportedFormats| &&
                          strptime(raw.text, SupportedFormats[k]) == Some(r.value) &&
                          forall j :: 0 <= j < k ==> strptime(raw.text, SupportedFormats[j]).None?
  {
    if IsSentinel(raw) then Ok(today)
    else
      match FirstMatch(raw.text, SupportedFormats, strptime)
      case Some(day) => Ok(day)
      case None => Err(UnsupportedFormat(raw.text))
  }

  /** Precedence, seen from the other side: when pattern `k` is the first
      that accepts the text, its answer is the parsed date, whatever the
      later patterns would have said. This is why `01/02/2020` is read
      month first: `%m/%d/%Y` precedes `%d/%m/%Y`. */
  lemma FirstAcceptingFormatWins(raw: RawDate, today: Day,
                                   strptime: (string, Format) -> Option<Day>, k: nat)
    requires !IsSentinel(raw)
    requires k < |SupportedFormats|
    requires strptime(raw.text, SupportedFormats[k]).Some?
    requires forall j :: 0 <= j < k ==> strptime(raw.text, SupportedFormats[j]).None?
    ensures ParseDate(raw, today, strptime) == Ok(strptime(raw.text, SupportedFormats[k]).value)
  {
  }
}

=== FILE: intervals.dfy ===
/** Day counts between two date intervals (`overlap_days` in solution.rb).
    A calendar date is its day number: Ruby's `Date - Date` is a Rational
    whose value is a whole number of days, so subtraction of day numbers
    models it exactly. */
module Intervals {

  type Day = int

  /** An interval as the record supplies it: `first` is the DateFrom
      column and `last` the DateTo column. Nothing orders the two. */
  datatype Interval = Interval(first: Day, last: Day)

  function Min(x: int, y: int): int { if x <= y then x else y }

  function Max(x: int, y: int): int { if x >= y then x else y }

  /** The number of days shared by two intervals: the later start
      subtracted from the earlier end, floored at zero. Inverted
      intervals are not normalised; the floor is all that handles them.
      The result never exceeds either interval's own length. */
  function OverlapDays(a: Interval, b: Interval): (r: nat)
    ensures r <= Max(0, a.last - a.first)
    ensures r <= Max(0, b.last - b.first)
    ensures r > 0 ==> a.first < a.last && b.first < b.last
  {
    Max(0, Min(a.last, b.last) - Max(a.first, b.first))
  }

  /** The days `d` with `lo <= d < hi`, built one day at a time. */
  ghost function DaysBetween(lo: int, hi: int): set<int>
    decreases hi - lo
  {
    if hi <= lo then {} else DaysBetween(lo, hi - 1) + {hi - 1}
  }

  /** The days an interval covers, read as the half-open range
      `[first, last)`; an inverted interval covers none. */
  ghost function Days(i: Interval): set<int>
  {
    DaysBetween(i.first, i.last)
  }

  lemma {:induction false} DaysBetweenMembers(lo: int, hi: int)
    ensures forall d :: d in DaysBetween(lo, hi) <==> lo <= d < hi
    decreases hi - lo
  {
    if hi > lo {
      DaysBetweenMembers(lo, hi - 1);
    }
  }

  lemma {:induction false} DaysBetweenSize(lo: int, hi: int)
    ensures |DaysBetween(lo, hi)| == Max(0, hi - lo)
    decreases hi - lo
  {
    if hi > lo {
      DaysBetweenSize(lo, hi - 1);
      DaysBetweenMembers(lo, hi - 1);
    }
  }

  /** Reference meaning of the formula: it counts exactly the days that
      both intervals cover. */
  lemma OverlapCountsSharedDays(a: Interval, b: Interval)
    ensures OverlapDays(a, b) == |Days(a) * Days(b)|
  {
    var lo := Max(a.first, b.first);
    var hi := Min(a.last, b.last);
    DaysBetweenMembers(a.first, a.last);
    DaysBetweenMembers(b.first, b.last);
    DaysBetweenMembers(lo, hi);
    forall d
      ensures d in Days(a) * Days(b) <==> d in DaysBetween(lo, hi)
    {
    }
    assert Days(a) * Days(b) == DaysBetween(lo, hi);
    DaysBetweenSize(lo, hi);
  }

  /** The overlap is positive exactly when some day is covered by both
      intervals. */
  lemma OverlapPositiveIffSharedDay(a: Interval, b: Interval)
    ensures OverlapDays(a, b) > 0 <==> Days(a) * Days(b) != {}
  {
    OverlapCountsSharedDays(a, b);
  }

  lemma OverlapSymmetric(a: Interval, b: Interval)
    ensures OverlapDays(a, b) == OverlapDays(b, a)
  {
  }

  /** An interval overlaps itself by its own length. */
  lemma OverlapWithItself(d1: Day, d2: Day)
    requires d1 <= d2
    ensures OverlapDays(Interval(d1, d2), Interval(d1, d2)) == d2 - d1
  {
  }

  /** An interval that ends on or before the other starts shares no day
      with it, whichever of the two intervals is inverted. */
  lemma OverlapOfSeparated(a: Interval, b: Interval)
    requires a.last <= b.first
    ensures OverlapDays(a, b) == 0
    ensures OverlapDays(b, a) == 0
  {
  }
}

=== FILE: pair_order.dfy ===
/** The enumeration order of Ruby's `Array#combination(2)`: every pair
    of positions `(i, j)` with `i < j`, ordered by `i` and then by `j`. */
module PairOrder {

  /** Strict lexicographic order on position pairs. */
  predicate LexBefore(p: (nat, nat), q: (nat, nat))
  {
    p.0 < q.0 || (p.0 == q.0 && p.1 < q.1)
  }

  /** The pairs `(i, j), (i, j + 1), ..., (i, n - 1)`. */
  function Row(i: nat, j: nat, n: nat): (ps: seq<(nat, nat)>)
    ensures |ps| == if j <= n then n - j else 0
    ensures forall k :: 0 <= k < |ps| ==> ps[k] == (i, j + k)
    decreases n - j
  {
    if j >= n then [] else [(i, j)] + Row(i, j + 1, n)
  }

  /** All pairs `(a, b)` with `i <= a < b < n`, in lexicographic order. */
  function PairsFrom(i: nat, n: nat): (ps: seq<(nat, nat)>)
    ensures forall k :: 0 <= k < |ps| ==> i <= ps[k].0 < ps[k].1 < n
    decreases n - i
  {
    if i >= n then [] else Row(i, i + 1, n) + PairsFrom(i + 1, n)
  }

  /** The pairs `combination(2)` yields over a sequence of length `n`. */
  function Pairs(n: nat): (ps: seq<(nat, nat)>)
    ensures forall k :: 0 <= k < |ps| ==> ps[k].0 < ps[k].1 < n
  {
    PairsFrom(0, n)
  }

  /** Every pair `(a, b)` with `i <= a < b < n` is enumerated. */
  lemma {:induction false} PairsFromComplete(i: nat, n: nat)
    ensures forall a: nat, b: nat :: i <= a < b < n ==> (a, b) in PairsFrom(i, n)
    decreases n - i
  {
    if i < n {
      var row := Row(i, i + 1, n);
      var rest := PairsFrom(i + 1, n);
      assert PairsFrom(i, n) == row + rest;
      PairsFromComplete(i + 1, n);
      forall a: nat, b: nat | i <= a < b < n
        ensures (a, b) in row + rest
      {
        if a == i {
          assert row[b - i - 1] == (a, b);
        } else {
          assert (a, b) in rest;
        }
      }
    }
  }

  /** The enumeration is strictly increasing in lexicographic order. */
  lemma {:induction false} PairsFromSorted(i: nat, n: nat)
    ensures forall k, k' :: 0 <= k < k' < |PairsFrom(i, n)| ==>
              LexBefore(PairsFrom(i, n)[k], PairsFrom(i, n)[k'])
    decreases n - i
  {
    if i < n {
      PairsFromSorted(i + 1, n);
    }
  }

  /** `Pairs(n)` holds every pair of positions `a < b < n`, each once, in
      strictly increasing lexicographic order. */
  lemma PairsExact(n: nat)
    ensures forall a: nat, b: nat :: a < b < n ==> (a, b) in Pairs(n)
    ensures forall k, k' :: 0 <= k < k' < |Pairs(n)| ==> LexBefore(Pairs(n)[k], Pairs(n)[k'])
  {
    PairsFromComplete(0, n);
    PairsFromSorted(0, n);
  }

  /** Strict ordering makes positions in the enumeration and pairs
      correspond one to one: a pair that comes lexicographically earlier
      is enumerated earlier. */
  lemma EarlierPairEarlierIndex(ps: seq<(nat, nat)>, k: nat, k': nat)
    requires forall x, y :: 0 <= x < y < |ps| ==> LexBefore(ps[x], ps[y])
    requires k < |ps| && k' < |ps|
    requires LexBefore(ps[k'], ps[k])
    ensures k' < k
  {
  }
}

=== FILE: ranking.dfy ===
/** The loop's guarantees restated over the input records themselves,
    with pairs of positions `i < j` in place of enumeration indices. */
module Ranking {

  import opened Results
  import opened PairOrder
  import opened Collaboration
  import opened CollaborationFacts

  /** Every pair of positions `i < j` is a candidate at some index. */
  lemma CandidateOf(recs: seq<Record>, i: nat, j: nat) returns (k: nat)
    requires i < j < |recs|
    ensures k < |Candidates(recs)|
    ensures Pairs(|recs|)[k] == (i, j)
    ensures Candidates(recs)[k] == (recs[i], recs[j])
  {
    var ps := Pairs(|recs|);
    PairsExact(|recs|);
    assert (i, j) in ps;
    k :| 0 <= k < |ps| && ps[k] == (i, j);
  }

  /** `max_collaboration_duration` after the loop is the maximum of 0 and
      the overlap of every pair of records on the same project. */
  lemma RankMaxIsLargestOverlap(recs: seq<Record>)
    ensures forall i, j :: 0 <= i < j < |recs| && recs[i].project == recs[j].project ==>
              Overlap(recs[i], recs[j]) <= Rank(recs).maxDuration
    ensures Rank(recs).maxDuration == 0 ||
            exists i, j :: 0 <= i < j < |recs| && recs[i].project == recs[j].project &&
                           Overlap(recs[i], recs[j]) == Rank(recs).maxDuration
  {
    var cands := Candidates(recs);
    var ps := Pairs(|recs|);
    FoldMaxIsLargestOverlap(cands);
    forall i, j | 0 <= i < j < |recs| && recs[i].project == recs[j].project
      ensures Overlap(recs[i], recs[j]) <= Rank(recs).maxDuration
    {
      var k := CandidateOf(recs, i, j);
      assert SameProject(cands[k]);
    }
    if Rank(recs).maxDuration != 0 {
      var k :| 0 <= k < |cands| && SameProject(cands[k]) &&
               PairOverlap(cands[k]) == Fold(cands).maxDuration;
      assert cands[k] == (recs[ps[k].0], recs[ps[k].1]);
    }
  }

  /** No same-project pair enumerated before `(i, j)` overlaps by `m`
      or more. */
  ghost predicate NoEarlierReaches(recs: seq<Record>, i: nat, j: nat, m: nat)
  {
    forall i', j' :: 0 <= i' < j' < |recs| && LexBefore((i', j'), (i, j)) &&
                     recs[i'].project == recs[j'].project ==>
                     Overlap(recs[i'], recs[j']) < m
  }

  /** A candidate index before which every same-project candidate
      overlaps less than `m` is, as a pair of positions, preceded in
      lexicographic order only by pairs that overlap less than `m`. */
  lemma EarlierCandidatesAreEarlierPairs(recs: seq<Record>, k: nat, m: nat)
    requires k < |Candidates(recs)|
    requires forall j :: 0 <= j < k && SameProject(Candidates(recs)[j]) ==>
                         PairOverlap(Candidates(recs)[j]) < m
    ensures NoEarlierReaches(recs, Pairs(|recs|)[k].0, Pairs(|recs|)[k].1, m)
  {
    var cands := Candidates(recs);
    var ps := Pairs(|recs|);
    var (i, j) := ps[k];
    forall i', j' | 0 <= i' < j' < |recs| && LexBefore((i', j'), (i, j)) &&
                    recs[i'].project == recs[j'].project
      ensures Overlap(recs[i'], recs[j']) < m
    {
      var k' := CandidateOf(recs, i', j');
      PairsExact(|recs|);
      EarlierPairEarlierIndex(ps, k, k');
      assert SameProject(cands[k']);
    }
  }

  /** `max_collaboration_pair` is nil exactly when the best duration is
      0. Otherwise it is the sorted employee ids of the first pair `i < j`,
      in `combination(2)` order, whose overlap equals the best duration:
      every same-project pair enumerated before it overlaps strictly less. */
  lemma RankBestPairIsFirst(recs: seq<Record>)
    ensures Rank(recs).bestPair.None? <==> Rank(recs).maxDuration == 0
    ensures Rank(recs).maxDuration > 0 ==>
              exists i, j :: 0 <= i < j < |recs| && recs[i].project == recs[j].project &&
                Overlap(recs[i], recs[j]) == Rank(recs).maxDuration &&
                Rank(recs).bestPair == Some(SortedPair(recs[i].emp, recs[j].emp)) &&
                NoEarlierReaches(recs, i, j, Rank(recs).maxDuration)
  {
    var cands := Candidates(recs);
    var ps := Pairs(|recs|);
    var best := Rank(recs).maxDuration;
    FoldBestPairIsFirst(cands);
    if best > 0 {
      var k :| 0 <= k < |cands| && SameProject(cands[k]) &&
               PairOverlap(cands[k]) == best &&
               Fold(cands).bestPair == Some(SortedPair(cands[k].0.emp, cands[k].1.emp)) &&
               forall j :: 0 <= j < k && SameProject(cands[j]) ==> PairOverlap(cands[j]) < best;
      EarlierCandidatesAreEarlierPairs(recs, k, best);
      var (i, j) := ps[k];
      assert cands[k] == (recs[i], recs[j]);
    }
  }

  /** Every key of `common_projects` is the project of some record, its
      value is the overlap of a pair of records on that project, and that
      value is never more than the final best duration. */
  lemma RankCommonProjects(recs: seq<Record>)
    ensures forall p :: p in Rank(recs).commonProjects ==>
              Rank(recs).commonProjects[p] <= Rank(recs).maxDuration &&
              exists i, j :: 0 <= i < j < |recs| &&
                             recs[i].project == p && recs[j].project == p &&
                             Overlap(recs[i], recs[j]) == Rank(recs).commonProjects[p]
  {
    var cands := Candidates(recs);
    var ps := Pairs(|recs|);
    var m := Rank(recs).commonProjects;
    FoldCommonProjectValues(cands);
    forall p | p in m
      ensures exists i, j :: 0 <= i < j < |recs| &&
                             recs[i].project == p && recs[j].project == p &&
                             Overlap(recs[i], recs[j]) == m[p]
    {
      var k :| LastWrite(cands, k, p) && m[p] == PairOverlap(cands[k]);
      assert cands[k] == (recs[ps[k].0], recs[ps[k].1]);
    }
  }

  /** The best duration never decreases as the loop proceeds, and keys of
      `common_projects` are only ever added or overwritten. */
  lemma RankMonotone(recs: seq<Record>, k: nat, k': nat)
    requires k <= k' <= |Candidates(recs)|
    ensures Fold(Candidates(recs)[..k]).maxDuration <= Fold(Candidates(recs)[..k']).maxDuration
    ensures Fold(Candidates(recs)[..k]).commonProjects.Keys <=
            Fold(Candidates(recs)[..k']).commonProjects.Keys
  {
    var cands := Candidates(recs);
    FoldPrefixMonotone(cands[..k'], k);
    assert cands[..k'][..k] == cands[..k];
  }
}

=== FILE: results.dfy ===
/** Optional values and success-or-error results, standing in for Ruby's
    `nil` and for a raised exception. */
module Results {

  datatype Option<+T> = None | Some(value: T)

  datatype Result<+T, +E> = Ok(value: T) | Err(error: E)
}

=== FILE: scenarios.dfy ===
/** Worked examples of the ranking loop on small inputs. Dates are day
    numbers counted from 1 January 2021 (day 0). */
module Scenarios {

  import opened Results
  import opened PairOrder
  import opened Collaboration
  import opened CollaborationFacts

  /** The enumeration order over four records. */
  lemma PairsOfFour()
    ensures Pairs(4) == [(0, 1), (0, 2), (0, 3), (1, 2), (1, 3), (2, 3)]
  {
    assert Row(2, 4, 4) == [];
    assert Row(2, 3, 4) == [(2, 3)];
    assert PairsFrom(3, 4) == [];
    assert PairsFrom(2, 4) == [(2, 3)];
    assert Row(1, 3, 4) == [(1, 3)];
    assert Row(1, 2, 4) == [(1, 2), (1, 3)];
    assert PairsFrom(1, 4) == [(1, 2), (1, 3), (2, 3)];
    assert Row(0, 3, 4) == [(0, 3)];
    assert Row(0, 2, 4) == [(0, 2), (0, 3)];
    assert Row(0, 1, 4) == [(0, 1), (0, 2), (0, 3)];
  }

  /** The candidates `combination(2)` yields from four records. */
  lemma CandidatesOfFour(a: Record, b: Record, c: Record, d: Record)
    ensures Candidates([a, b, c, d]) == [(a, b), (a, c), (a, d), (b, c), (b, d)] + [(c, d)]
  {
    PairsOfFour();
  }

  /** When only the first of five candidates shares a project, the state
      after the five is the state after the first. */
  lemma OnlyFirstOfFiveCounts(a: Record, b: Record, c: Record, d: Record)
    requires a.project == b.project
    requires a.project != c.project && a.project != d.project
    requires b.project != c.project && b.project != d.project
    ensures Fold([(a, b), (a, c), (a, d), (b, c), (b, d)]) == Step(Initial, a, b)
  {
    var first := Step(Initial, a, b);
    var cs := [(a, b)];
    FoldSnoc([], (a, b));
    assert [] + [(a, b)] == cs;
    assert Fold(cs) == first;
    FoldSnoc(cs, (a, c));
    cs := cs + [(a, c)];
    assert Fold(cs) == first;
    FoldSnoc(cs, (a, d));
    cs := cs + [(a, d)];
    assert Fold(cs) == first;
    FoldSnoc(cs, (b, c));
    cs := cs + [(b, c)];
    assert Fold(cs) == first;
    FoldSnoc(cs, (b, d));
    cs := cs + [(b, d)];
    assert Fold(cs) == first;
    assert cs == [(a, b), (a, c), (a, d), (b, c), (b, d)];
  }

  /** Two pairs of records on two different projects: the loop's result
      is the step for the first pair followed by the step for the second. */
  lemma RankOfTwoProjectPairs(a: Record, b: Record, c: Record, d: Record)
    requires a.project == b.project && c.project == d.project
    requires a.project != c.project
    ensures Rank([a, b, c, d]) == Step(Step(Initial, a, b), c, d)
  {
    OnlyFirstOfFiveCounts(a, b, c, d);
    CandidatesOfFour(a, b, c, d);
    FoldSnoc([(a, b), (a, c), (a, d), (b, c), (b, d)], (c, d));
  }

  /** The candidates `combination(2)` yields from three records. */
  lemma CandidatesOfThree(a: Record, b: Record, c: Record)
    ensures Candidates([a, b, c]) == [(a, b), (a, c)] + [(b, c)]
  {
    assert Row(2, 3, 3) == [];
    assert Row(1, 2, 3) == [(1, 2)];
    assert Row(0, 1, 3) == [(0, 1), (0, 2)];
    assert Pairs(3) == [(0, 1), (0, 2), (1, 2)];
  }

  /** The candidates `combination(2)` yields from two records. */
  lemma CandidatesOfTwo(a: Record, b: Record)
    ensures Candidates([a, b]) == [(a, b)]
  {
    assert Row(0, 1, 2) == [(0, 1)];
    assert Pairs(2) == [(0, 1)];
  }

  /** A single candidate is a single step from the initial state. */
  lemma FoldOfOne(c: (Record, Record))
    ensures Fold([c]) == Step(Initial, c.0, c.1)
  {
    FoldSnoc([], c);
    assert [] + [c] == [c];
  }

  /** Employees 1 and 2 share project 100 from 5 to 10 January; employee
      3 is alone on project 200. The pair (1, 2) wins with 5 days. */
  lemma SharedProjectWins()
    ensures Rank([Record(1, 100, 0, 9), Record(2, 100, 4, 19), Record(3, 200, 0, 2)]) ==
            RankState(5, Some(EmployeePair(1, 2)), map[100 := 5])
  {
    var a, b, c := Record(1, 100, 0, 9), Record(2, 100, 4, 19), Record(3, 200, 0, 2);
    var first := Step(Initial, a, b);
    assert first == RankState(5, Some(EmployeePair(1, 2)), map[100 := 5]);
    CandidatesOfThree(a, b, c);
    FoldOfOne((a, b));
    assert Fold([(a, b)]) == first;
    FoldSnoc([(a, b)], (a, c));
    assert [(a, b)] + [(a, c)] == [(a, b), (a, c)];
    assert Fold([(a, b), (a, c)]) == first;
    FoldSnoc([(a, b), (a, c)], (b, c));
    assert Fold([(a, b), (a, c)] + [(b, c)]) == first;
  }

  /** Two pairs on different projects tie at 10 days: both projects are
      recorded, but the pair is the first one enumerated. */
  lemma FirstOfTiedPairsWins()
    ensures Rank([Record(1, 100, 0, 10), Record(2, 100, 0, 10),
                  Record(3, 200, 0, 10), Record(4, 200, 0, 10)]) ==
            RankState(10, Some(EmployeePair(1, 2)), map[100 := 10, 200 := 10])
  {
    var a, b := Record(1, 100, 0, 10), Record(2, 100, 0, 10);
    var c, d := Record(3, 200, 0, 10), Record(4, 200, 0, 10);
    var first := Step(Initial, a, b);
    assert first == RankState(10, Some(EmployeePair(1, 2)), map[100 := 10]);
    assert Step(first, c, d) == RankState(10, Some(EmployeePair(1, 2)), map[100 := 10, 200 := 10]);
    RankOfTwoProjectPairs(a, b, c, d);
  }

  /** A later, longer collaboration replaces the best pair, but the entry
      written for the superseded pair's project stays in the map. */
  lemma SupersededEntryRemains()
    ensures Rank([Record(1, 100, 0, 5), Record(2, 100, 0, 5),
                  Record(3, 200, 0, 10), Record(4, 200, 0, 10)]) ==
            RankState(10, Some(EmployeePair(3, 4)), map[100 := 5, 200 := 10])
  {
    var a, b := Record(1, 100, 0, 5), Record(2, 100, 0, 5);
    var c, d := Record(3, 200, 0, 10), Record(4, 200, 0, 10);
    var first := Step(Initial, a, b);
    assert first == RankState(5, Some(EmployeePair(1, 2)), map[100 := 5]);
    assert Step(first, c, d) == RankState(10, Some(EmployeePair(3, 4)), map[100 := 5, 200 := 10]);
    RankOfTwoProjectPairs(a, b, c, d);
  }

  /** Records on a shared project that never overlap still tie the
      initial best duration of 0, so the project is written with 0 while
      no pair is recorded. */
  lemma ZeroTieWritesWithoutPair()
    ensures Rank([Record(5, 300, 0, 3), Record(6, 300, 7, 9)]) ==
            RankState(0, None, map[300 := 0])
  {
    var a, b := Record(5, 300, 0, 3), Record(6, 300, 7, 9);
    CandidatesOfTwo(a, b);
    FoldOfOne((a, b));
  }

  /** Nothing excludes the same employee appearing twice on a project:
      the two records form a pair like any other. */
  lemma SameEmployeeCanPair()
    ensures Rank([Record(7, 100, 0, 10), Record(7, 100, 5, 10)]) ==
            RankState(5, Some(EmployeePair(7, 7)), map[100 := 5])
  {
    var a, b := Record(7, 100, 0, 10), Record(7, 100, 5, 10);
    CandidatesOfTwo(a, b);
    FoldOfOne((a, b));
  }
}
